=== FILE: README.md ===
# ObjectPooler, modelled in Dafny

A model of the Unity object pooler in `Assets/Plugins/ObjectPooler/ObjectPooler.cs`
and of its axis-masked vector replacement in
`Assets/Plugins/ObjectPooler/Extensions/Vector3Extensions.cs`.

The pooler keeps one FIFO queue of game objects per pool kind. The queues are
filled at start-up from a list of configuration records
`(pool, prefab, initialSize, autoExpand, maxExpandSize)`. `Spawn` hands out an
object in three tiers:

1. It hands out the first inactive object in queue order.
2. Otherwise, if the kind may grow (`autoExpand && Count < maxExpandSize`), it
   clones one new object and appends it to the queue.
3. Otherwise, it moves the front object to the back and hands it out again.

The chosen object is placed and activated. `DisablePool` and
`DisableAllObjects` deactivate objects in bulk. Callers may also switch objects
off themselves. Validation clamps both sizes of every record to at least 1.

The model is functional. A `Pooler` value holds the configuration, a map from
kind to `seq<Obj>`, and a counter that hands out fresh identities. An `Obj` has
an identity, an `active` flag and an abstract placement `P`. Every operation
returns a new pooler or a `PoolError`. Each `PoolError` stands for one
exception the C# code can raise.

Files:

- `wrappers.dfy`: `Option` and `Result`.
- `vectors.dfy`: `ReplaceWithAxes`, with vector components of an abstract type.
- `pool_config.dfy`: the configuration record, its defaults and its validation.
- `object_pooler.dfy`: the pool engine. This covers start-up, the three spawn
  tiers, reclaim and external switching, plus the invariant `Valid` that every
  pooler built by `Init` satisfies. `Valid` requires distinct configured kinds,
  queue lengths within capacity, and distinct identities below the counter.
- `pooler_properties.dfy`: what each tier does to the queue, preservation of
  `Valid`, growth bounds, round-robin order, and reclaim.
- `pooler_scenarios.dfy`: whole runs from `Init`. One is a fixed pool of three
  spawned five times. Another is a pool of two that grows to four and then
  recycles its oldest object.

On these points the model follows the C# code as written:

- Activity is a flag on each object, and `TryGetInactive` scans the queue in
  order. Tier 1 is therefore deterministic: it picks the first inactive object
  in queue order.
- Validation never relates `initialSize` to `maxExpandSize`. A record with
  `initialSize > maxExpandSize` keeps both values (`ValidationKeepsInitialAboveMax`).
  Such a queue never grows and stays above `maxExpandSize`, so the capacity
  bound of a kind is the larger of its two sizes.
- Validation runs from `OnValidate` (ObjectPooler.cs:21-26), separately from
  start-up, so `Init` works on the records as they are. A negative `initialSize`
  fails when the queue is allocated. A missing prefab fails at the first
  clone. A duplicate kind fails when it is added to the dictionary.

## Model

| member | source | states |
|---|---|---|
| `Vectors.ReplaceWithAxes` | Assets/Plugins/ObjectPooler/Extensions/Vector3Extensions.cs:14-19 | on every axis whose mask component is exactly 1 the result has `to`'s component; on every other axis, whatever the mask holds there (0, 2, -1), it keeps the input's component |
| `Vectors.AxesWarning` | Assets/Plugins/ObjectPooler/Extensions/Vector3Extensions.cs:9-12 | the warning is raised exactly when some mask component is neither 0 nor 1 |
| `Vectors.FullMaskYieldsTarget` | Assets/Plugins/ObjectPooler/Extensions/Vector3Extensions.cs:14-19 | the mask (1, 1, 1) yields the target vector |
| `Vectors.EmptyMaskKeepsVector` | Assets/Plugins/ObjectPooler/Extensions/Vector3Extensions.cs:14-19 | the mask (0, 0, 0) yields the input vector unchanged |
| `Vectors.ReplaceIdempotent` | Assets/Plugins/ObjectPooler/Extensions/Vector3Extensions.cs:14-19 | replacing twice with the same mask and target equals replacing once |
| `Vectors.LaterTargetWins` | Assets/Plugins/ObjectPooler/Extensions/Vector3Extensions.cs:14-19 | two replacements with the same mask equal the second replacement alone |
| `Vectors.IllFormedMaskStillReplaces` | Assets/Plugins/ObjectPooler/Extensions/Vector3Extensions.cs:9-17 | an ill-formed mask (2, 1, -1) raises the warning and the replacement is still computed |
| `PoolConfig.NewObjectPool` | Assets/Plugins/ObjectPooler/ObjectPooler.cs:258-266 | a record built with its field initialisers has no prefab, does not grow, and has both sizes in range before any validation |
| `PoolConfig.ValidateInitialSize` | Assets/Plugins/ObjectPooler/ObjectPooler.cs:230-237 | the initial size becomes at least 1; an in-range record is unchanged; otherwise the size becomes exactly 1; no other field changes |
| `PoolConfig.ValidateMaxExpandSize` | Assets/Plugins/ObjectPooler/ObjectPooler.cs:239-246 | the same for the maximum expand size |
| `PoolConfig.DiagnosticsOf` | Assets/Plugins/ObjectPooler/ObjectPooler.cs:220-227 | a record logs nothing exactly when both sizes are at least 1 and the prefab is set |
| `PoolConfig.ValidateOne` | Assets/Plugins/ObjectPooler/ObjectPooler.cs:220-227 | a validated record is in range and keeps its kind, prefab and expansion flag; each size below 1 becomes exactly 1 and each size of at least 1 is kept, whatever the other size is; an in-range record is unchanged; the diagnostics are those of the record |
| `PoolConfig.ValidateInputData` | Assets/Plugins/ObjectPooler/ObjectPooler.cs:218-228 | every record is validated in place, and nothing is logged exactly when every record is in range with its prefab set |
| `PoolConfig.ValidatedRecordsInRange` | Assets/Plugins/ObjectPooler/ObjectPooler.cs:218-246 | after validation every record is in range, with kind, prefab and expansion flag untouched |
| `PoolConfig.ValidateIdempotent` | Assets/Plugins/ObjectPooler/ObjectPooler.cs:218-246 | validating validated records changes nothing, and every diagnostic it still logs is a missing prefab, logged for no record exactly when every prefab is set |
| `PoolConfig.InRangeLogsOnlyPrefabs` | Assets/Plugins/ObjectPooler/ObjectPooler.cs:230-254 | validating records whose sizes are already in range reports nothing but missing prefabs |
| `PoolConfig.ValidationKeepsInitialAboveMax` | Assets/Plugins/ObjectPooler/ObjectPooler.cs:230-246 | every record whose maximum is at least 1 and whose initial size exceeds it passes validation unchanged, still above its maximum |
| `ObjectPooler.FindConfig` | Assets/Plugins/ObjectPooler/ObjectPooler.cs:156-166 | the lookup finds nothing exactly when no record has the kind; otherwise it finds the first record of that kind |
| `ObjectPooler.CreatePool` | Assets/Plugins/ObjectPooler/ObjectPooler.cs:47-65 | building a queue succeeds exactly when the size is non-negative and a prefab is set if any clone is needed; a negative size fails at allocation; the queue holds exactly `initialSize` inactive clones with consecutive identities |
| `ObjectPooler.Fill` | Assets/Plugins/ObjectPooler/ObjectPooler.cs:41-44 | a successful fill never lowers the identity counter and keeps every kind already present; what it builds is stated by the three lemmas below |
| `ObjectPooler.FillSucceedsIff` | Assets/Plugins/ObjectPooler/ObjectPooler.cs:41-44 | filling succeeds exactly when every record can be built and no kind is added twice |
| `ObjectPooler.FillBuildsFreshQueues` | Assets/Plugins/ObjectPooler/ObjectPooler.cs:41-44 | a successful fill keeps the earlier queues and adds one fresh queue per record under its kind |
| `ObjectPooler.FillIdsWellFormed` | Assets/Plugins/ObjectPooler/ObjectPooler.cs:41-44 | filling keeps every identity distinct and below the counter |
| `ObjectPooler.Init` | Assets/Plugins/ObjectPooler/ObjectPooler.cs:37-45 | start-up succeeds exactly when the records can be filled; the pooler is then valid and every configured kind holds exactly `initialSize` fresh inactive objects |
| `ObjectPooler.TryGetInactive` | Assets/Plugins/ObjectPooler/ObjectPooler.cs:128-141 | a found index points into the queue |
| `ObjectPooler.FirstInactiveFrom` | Assets/Plugins/ObjectPooler/ObjectPooler.cs:130-137 | a found index lies between the start position and the end of the queue |
| `ObjectPooler.FirstInactiveFromIsFirst` | Assets/Plugins/ObjectPooler/ObjectPooler.cs:130-137 | the scan from a position finds an inactive object with every earlier scanned object active, and finds nothing exactly when all scanned objects are active |
| `ObjectPooler.TryGetInactiveIsFirst` | Assets/Plugins/ObjectPooler/ObjectPooler.cs:128-141 | the result is the first inactive object in queue order, and there is none exactly when every object is active |
| `ObjectPooler.IsExpandable` | Assets/Plugins/ObjectPooler/ObjectPooler.cs:156-167 | the check fails exactly when the kind has no record; otherwise it holds exactly when the kind's first record may grow and the queue is below its maximum |
| `ObjectPooler.AddPoolObject` | Assets/Plugins/ObjectPooler/ObjectPooler.cs:169-180 | growth succeeds exactly when the kind has a record with a prefab and a non-empty queue; it then appends one inactive clone with the next identity at the back and points at it |
| `ObjectPooler.GetAppropriatePoolObject` | Assets/Plugins/ObjectPooler/ObjectPooler.cs:111-126 | the choice points into the kind's queue, leaves the configuration and every other kind alone, and fails on an empty queue |
| `ObjectPooler.Spawn` | Assets/Plugins/ObjectPooler/ObjectPooler.cs:89-109 | an unregistered kind fails with `PoolDoesNotExist` and an empty queue fails; on success the configuration and every other kind's queue are unchanged, and the returned object is in the kind's queue, active, at the requested placement |
| `ObjectPooler.DisablePool` | Assets/Plugins/ObjectPooler/ObjectPooler.cs:194-200 | an unregistered kind fails (dictionary lookup); otherwise every object of the kind is inactive, with queue order, identities, placements and every other kind unchanged |
| `ObjectPooler.DisableAllObjects` | Assets/Plugins/ObjectPooler/ObjectPooler.cs:186-192 | every object of every kind is inactive, queue lengths, identities and placements are unchanged, and a valid pooler stays valid |
| `ObjectPooler.SetActive` | Assets/SingleObjectSpawnTest.cs:43 | a caller switching one object on or off changes only that object's flag, wherever it is |
| `PoolerProperties.SpawnReusesFirstInactive` | Assets/Plugins/ObjectPooler/ObjectPooler.cs:111-116 | tier 1: the first inactive object is handed out in place, with queue order, length and counter unchanged |
| `PoolerProperties.SpawnExpands` | Assets/Plugins/ObjectPooler/ObjectPooler.cs:117-120 | tier 2: exactly one new object with the next identity is appended and handed out; growth fails on a missing prefab or an empty queue |
| `PoolerProperties.SpawnRecycles` | Assets/Plugins/ObjectPooler/ObjectPooler.cs:122-125 | tier 3: the front object moves to the back and is handed out; the identities are rotated left by one, with the same multiset; an empty queue fails |
| `PoolerProperties.SpawnTouchesOnlyReturned` | Assets/Plugins/ObjectPooler/ObjectPooler.cs:96-108 | every object of the kind other than the handed-out one is still in the queue with its flag and placement, and the queue grows by at most one |
| `PoolerProperties.ReusePreservesValid` | Assets/Plugins/ObjectPooler/ObjectPooler.cs:111-116 | tier 1 keeps the invariant |
| `PoolerProperties.AppendKeepsValid` | Assets/Plugins/ObjectPooler/ObjectPooler.cs:169-177 | appending an object with the next identity to a kind that may grow keeps the invariant |
| `PoolerProperties.ExpandPreservesValid` | Assets/Plugins/ObjectPooler/ObjectPooler.cs:117-120 | tier 2 keeps the invariant |
| `PoolerProperties.RecyclePreservesValid` | Assets/Plugins/ObjectPooler/ObjectPooler.cs:122-125 | tier 3 keeps the invariant |
| `PoolerProperties.SpawnPreservesValid` | Assets/Plugins/ObjectPooler/ObjectPooler.cs:89-126 | every successful spawn keeps the invariant: distinct kinds, lengths within capacity, and distinct identities below the counter |
| `PoolerProperties.CapacityOf` | Assets/Plugins/ObjectPooler/ObjectPooler.cs:156-163 | under the invariant a kind that may not grow holds exactly its initial size, and no kind holds fewer than its initial size or more than the larger of its two sizes |
| `PoolerProperties.SpawnNeverShrinks` | Assets/Plugins/ObjectPooler/ObjectPooler.cs:111-126 | no spawn shrinks any queue |
| `PoolerProperties.InitOfValidatedIsStocked` | Assets/Plugins/ObjectPooler/ObjectPooler.cs:41-62 | start-up from in-range records gives every configured kind at least one object and a prefab |
| `PoolerProperties.SpawnOnStockedSucceeds` | Assets/Plugins/ObjectPooler/ObjectPooler.cs:89-126 | on a valid stocked pooler every spawn of a registered kind succeeds and keeps the pooler valid and stocked |
| `PoolerProperties.SpawnAllOnStockedSucceeds` | Assets/Plugins/ObjectPooler/ObjectPooler.cs:89-126 | any run of spawns on a valid stocked pooler succeeds and keeps the invariant |
| `PoolerProperties.RecycleStep` | Assets/Plugins/ObjectPooler/ObjectPooler.cs:122-125 | one forced reuse hands out the front, rotates the identities by one, and leaves every object active and the kind unable to grow |
| `PoolerProperties.RoundRobin` | Assets/Plugins/ObjectPooler/ObjectPooler.cs:122-125 | with all objects active and no growth, `m` spawns hand out the first `m` objects in queue order and rotate the queue by `m`, leaving every object active and the kind still unable to grow |
| `PoolerProperties.GrowStep` | Assets/Plugins/ObjectPooler/ObjectPooler.cs:117-120 | one growth appends the next identity, keeps the configuration and leaves every object active |
| `PoolerProperties.GrowsOneAtATime` | Assets/Plugins/ObjectPooler/ObjectPooler.cs:156-177 | with all objects active and room to grow, each of `n` spawns appends one new object with consecutive identities, and the old objects keep their order |
| `PoolerProperties.FillStep` | Assets/Plugins/ObjectPooler/ObjectPooler.cs:113-116 | on a queue whose first `done` objects are active and the rest inactive, one spawn hands out object `done` and leaves the first `done + 1` active |
| `PoolerProperties.FillsInOrder` | Assets/Plugins/ObjectPooler/ObjectPooler.cs:128-141 | on such a queue, `n` spawns hand out objects `done` to `done + n - 1` in order, with identities and counter unchanged |
| `PoolerProperties.FreshPoolRoundRobin` | Assets/Plugins/ObjectPooler/ObjectPooler.cs:111-125 | a fresh kind that may not grow hands out its objects in queue order, then starts again from the front in the same order |
| `PoolerProperties.DisablePoolIdempotent` | Assets/Plugins/ObjectPooler/ObjectPooler.cs:194-200 | disabling a kind twice equals disabling it once |
| `PoolerProperties.DisablePoolPreservesValid` | Assets/Plugins/ObjectPooler/ObjectPooler.cs:194-200 | disabling a kind keeps the invariant |
| `PoolerProperties.DisableThenSpawnReturnsFront` | Assets/Plugins/ObjectPooler/ObjectPooler.cs:111-116 | after disabling a non-empty kind, the next spawn hands out the front object in place, creating nothing |
| `PoolerProperties.SetActivePreservesValid` | Assets/SingleObjectSpawnTest.cs:43 | switching an object on or off from outside keeps the invariant |
| `PoolerProperties.ExternallyDeactivatedIsReused` | Assets/Plugins/ObjectPooler/ObjectPooler.cs:128-141 | an object a caller switched off, the only inactive one of its kind, is the next one handed out, in place: the queue keeps its length and its order of identities |
| `PoolerScenarios.InitSingle` | Assets/Plugins/ObjectPooler/ObjectPooler.cs:37-45 | start-up from one buildable record gives a valid pooler holding that record's fresh queue |
| `PoolerScenarios.FixedPoolOfThreeSpawnedFiveTimes` | Assets/Plugins/ObjectPooler/ObjectPooler.cs:111-125 | a pool of three that may not grow, spawned five times, hands out its three objects in order and then the first two again, and stays at three |
| `PoolerScenarios.GrowingPoolOfTwoSpawnedFiveTimes` | Assets/Plugins/ObjectPooler/ObjectPooler.cs:111-125 | a pool of two that may grow to four hands out its two objects, then two new ones, then on the fifth spawn its oldest object, staying at four |
| `PoolerScenarios.SpawnDisableSpawnReusesSameInstance` | Assets/Plugins/ObjectPooler/ObjectPooler.cs:194-200 | spawn, disable the kind, spawn again: both spawns hand out the front object, and after the second spawn the queue keeps its size and its order of identities |

## Left out

- Unity object plumbing is not modelled. This covers `InstantiateObject` (ObjectPooler.cs:67-70), `CreatePoolParent` (72-79), `SetParent`, the folder's parent lookup in `GetPoolFolder` (209-211), and the `OnValidate`/`Awake` wiring (21-31). Cloning is a counter that yields a fresh identity. Only the emptiness check of `GetPoolFolder` (204-207) is kept, as the `PoolIsEmpty` error.
- The `Spawn` overloads with a default placement (85-87) are left out. The placement is an abstract type `P`, so Unity's zero vector and identity rotation have no meaning in the model.
- The deactivate-before-place step of `Spawn` (98-101) is not modelled separately. It only matters to `OnDisable`/`OnEnable` hooks, which are left out. The net effect, an active object at the new placement, is modelled.
- Partial state after a failed start-up is left out. In Unity, an exception inside `Init` leaves `_pools` partly filled. The model returns the error and no pooler.
- The orphan clone is left out. When `AddPoolObject` runs on an empty queue, Unity has already cloned the prefab before `GetPoolFolder` throws, so a stray object is left outside every queue. The model returns `PoolIsEmpty` and does not advance the identity counter.
- `ObjectPooler.TryGetInactive` and `ObjectPooler.FirstInactiveFrom`: their own contracts state only where a found index lies. That it is the first inactive object, and that nothing is found exactly when every object is active, is stated by `TryGetInactiveIsFirst` and `FirstInactiveFromIsFirst`. A quantified contract on these functions would be unfolded at every spawn inside a run of spawns and make the proofs about runs too costly for the verifier.
- `ObjectPooler.Fill`: its own contract states only that the counter does not go down and earlier kinds are kept. When it succeeds and what it builds are stated by `FillSucceedsIff`, `FillBuildsFreshQueues` and `FillIdsWellFormed`, because each needs an induction of its own.
- `Vectors.Is01`: `int.Is01` is not part of this model. It is assumed to mean "0 or 1", the reading its name and its caller's warning text suggest.
- Log messages are left out. Validation returns the list of diagnostics it would log, not their text. The vector warning is a boolean.
- `ValidatePrefab` (248-254) only logs, so it appears only as the `PrefabIsNull` diagnostic.
- Other components are left out: `PositionLinker`, the pooled-object event classes, the data holders `PooledObject` and `LinkerData`, and the benchmark and demo scripts. They are engine callbacks, timing or data without logic.
- Exceptions are `PoolError` values, one per way the C# code can throw. .NET exception types and messages are not modelled.
- `Pool` is a Unity enum and is modelled as an abstract kind type `K`. Transforms (position and rotation) are an abstract placement type `P`.
- `PoolerProperties.SpawnAll` is a helper that runs spawns in sequence. Its own contract only states the result length and the unchanged configuration. What a run hands out is stated by `RoundRobin`, `FillsInOrder` and `GrowsOneAtATime`.

=== FILE: object_pooler.dfy ===
/** The pool engine: one FIFO queue of instances per pool kind, filled from the
    configuration, handing instances out in three tiers (first inactive in
    queue order, one-object expansion, round-robin reuse of the front) and
    reclaiming them in bulk. Activity is a flag on each instance; there are no
    separate active or inactive sets. Instance creation is a counter that
    yields fresh identities. */
module ObjectPooler {
  import opened Wrappers
  import opened PoolConfig

  /** A pooled instance: its identity, its `activeSelf` flag and its placement
      (position and rotation). */
  datatype Obj<P> = Obj(id: nat, active: bool, placement: P)

  /** The exceptions the pooler can raise. */
  datatype PoolError =
    | PoolDoesNotExist   // a kind with no configuration record
    | KeyNotFound        // indexing the pool map with an unregistered kind
    | DuplicatePool      // the same kind configured twice
    | NegativeCapacity   // a queue created with a negative initial size
    | NullPrefab         // cloning a prefab that is not set
    | PoolIsEmpty        // looking up the folder of an empty queue
    | QueueIsEmpty       // dequeuing from an empty queue

  /** The pooler: its configuration, the queue of every registered kind, and
      the identity the next created instance receives. */
  datatype Pooler<K, P> = Pooler(
    configs: seq<ObjectPool<K, P>>,
    pools: map<K, seq<Obj<P>>>,
    nextId: nat)

  /** A chosen instance: the pooler after the choice and the index of the
      instance in its kind's queue. */
  datatype Picked<K, P> = Picked(pooler: Pooler<K, P>, index: nat)

  /** The outcome of a spawn: the pooler afterwards and the handed-out instance. */
  datatype Spawned<K, P> = Spawned(pooler: Pooler<K, P>, obj: Obj<P>)

  // ---------------------------------------------------------------------------
  // Identities

  function Ids<P(==)>(q: seq<Obj<P>>): (r: seq<nat>)
    ensures |r| == |q|
    ensures forall i :: 0 <= i < |q| ==> r[i] == q[i].id
  {
    seq(|q|, i requires 0 <= i < |q| => q[i].id)
  }

  predicate NoDuplicates(xs: seq<nat>)
  {
    forall i, j :: 0 <= i < j < |xs| ==> xs[i] != xs[j]
  }

  predicate DisjointIds<P(==)>(q1: seq<Obj<P>>, q2: seq<Obj<P>>)
  {
    forall i, j :: 0 <= i < |q1| && 0 <= j < |q2| ==> q1[i].id != q2[j].id
  }

  /** Every instance has a distinct identity below `nextId`. */
  ghost predicate IdsWellFormed<K, P>(pools: map<K, seq<Obj<P>>>, nextId: nat)
  {
    && (forall k :: k in pools ==> NoDuplicates(Ids(pools[k])))
    && (forall k, i :: k in pools && 0 <= i < |pools[k]| ==> pools[k][i].id < nextId)
    && (forall k1, k2 :: k1 in pools && k2 in pools && k1 != k2 ==> DisjointIds(pools[k1], pools[k2]))
  }

  // ---------------------------------------------------------------------------
  // Configuration lookup

  function Kinds<K(==), P(==)>(configs: seq<ObjectPool<K, P>>): (ks: set<K>)
    ensures forall i :: 0 <= i < |configs| ==> configs[i].pool in ks
    ensures forall k :: k in ks ==> exists i :: 0 <= i < |configs| && configs[i].pool == k
  {
    set i | 0 <= i < |configs| :: configs[i].pool
  }

  predicate DistinctKinds<K(==), P(==)>(configs: seq<ObjectPool<K, P>>)
  {
    forall i, j :: 0 <= i < j < |configs| ==> configs[i].pool != configs[j].pool
  }

  /** The first configuration record of kind `k`, as the linear searches of
      the expansion check and the prefab lookup find it. */
  function FindConfig<K(==), P(==)>(configs: seq<ObjectPool<K, P>>, k: K): (r: Option<ObjectPool<K, P>>)
    ensures r.None? <==> forall i :: 0 <= i < |configs| ==> configs[i].pool != k
    ensures r.Some? ==> exists i :: 0 <= i < |configs| && configs[i] == r.value
                                   && forall j :: 0 <= j < i ==> configs[j].pool != k
    ensures r.Some? ==> r.value.pool == k
  {
    if configs == [] then None
    else if configs[0].pool == k then Some(configs[0])
    else
      var rest := FindConfig(configs[1..], k);
      assert forall i :: 1 <= i < |configs| ==> configs[i] == configs[1..][i - 1];
      if rest.Some? then
        assert exists i :: 1 <= i < |configs| && configs[i] == rest.value
                          && forall j :: 0 <= j < i ==> configs[j].pool != k by {
          var i' :| 0 <= i' < |configs[1..]| && configs[1..][i'] == rest.value
                    && forall j :: 0 <= j < i' ==> configs[1..][j].pool != k;
          assert configs[i' + 1] == rest.value;
          assert forall j :: 1 <= j < i' + 1 ==> configs[j] == configs[1..][j - 1];
        }
        rest
      else rest
  }

  /** With distinct kinds the record found for a configured kind is its record. */
  lemma FindConfigOfDistinct<K, P>(configs: seq<ObjectPool<K, P>>, i: nat)
    requires DistinctKinds(configs) && i < |configs|
    ensures FindConfig(configs, configs[i].pool) == Some(configs[i])
  {
  }

  /** How many instances a configured queue may hold: exactly the initial size
      when it may not grow, otherwise between the initial size and the larger
      of the two sizes. */
  predicate WithinCapacity<K(==), P(==)>(c: ObjectPool<K, P>, n: int)
  {
    && c.initialSize <= n
    && n <= (if c.initialSize < c.maxExpandSize then c.maxExpandSize else c.initialSize)
    && (!c.autoExpand ==> n == c.initialSize)
  }

  /** The invariant every pooler built by `Init` keeps: one queue per
      configured kind, sized within its capacity, with well-formed identities. */
  ghost predicate Valid<K, P>(s: Pooler<K, P>)
  {
    && DistinctKinds(s.configs)
    && s.pools.Keys == Kinds(s.configs)
    && (forall i :: 0 <= i < |s.configs| ==> WithinCapacity(s.configs[i], |s.pools[s.configs[i].pool]|))
    && IdsWellFormed(s.pools, s.nextId)
  }

  // ---------------------------------------------------------------------------
  // Fill

  /** Clones `prefab` as instance `id` and deactivates the clone. */
  function Instantiate<P(==)>(prefab: Prefab<P>, id: nat): (o: Obj<P>)
    ensures o.id == id && !o.active && o.placement == prefab.placement
  {
    Obj(id, false, prefab.placement)
  }

  /** A queue is fresh when it holds inactive clones of the record's prefab. */
  predicate FreshQueue<K(==), P(==)>(c: ObjectPool<K, P>, q: seq<Obj<P>>)
  {
    && |q| == c.initialSize
    && forall i :: 0 <= i < |q| ==> !q[i].active && c.prefab.Some? && q[i].placement == c.prefab.value.placement
  }

  /** Whether `CreatePool` can build the record's queue. */
  predicate Creatable<K(==), P(==)>(c: ObjectPool<K, P>)
  {
    c.initialSize >= 0 && (c.initialSize > 0 ==> c.prefab.Some?)
  }

  /** Builds one kind's queue: `initialSize` inactive clones with consecutive
      identities from `firstId`. A negative size fails when the queue is
      allocated; a missing prefab fails at the first clone. */
  function CreatePool<K(==), P(==)>(c: ObjectPool<K, P>, firstId: nat): (r: Result<seq<Obj<P>>, PoolError>)
    ensures r.Success? <==> Creatable(c)
    ensures c.initialSize < 0 ==> r == Failure(NegativeCapacity)
    ensures r.Success? ==> FreshQueue(c, r.value)
    ensures r.Success? ==> forall i :: 0 <= i < |r.value| ==> r.value[i].id == firstId + i
  {
    if c.initialSize < 0 then Failure(NegativeCapacity)
    else if c.initialSize == 0 then Success([])
    else if c.prefab.None? then Failure(NullPrefab)
    else
      var q := seq(c.initialSize, i requires 0 <= i < c.initialSize => Instantiate(c.prefab.value, firstId + i));
      assert forall i :: 0 <= i < |q| ==> q[i] == Instantiate(c.prefab.value, firstId + i);
      Success(q)
  }

  /** Whether every record of `todo` can be added on top of `pools`. */
  predicate Fillable<K(==), P(==)>(todo: seq<ObjectPool<K, P>>, pools: map<K, seq<Obj<P>>>)
  {
    && (forall i :: 0 <= i < |todo| ==> Creatable(todo[i]))
    && DistinctKinds(todo)
    && (forall i :: 0 <= i < |todo| ==> todo[i].pool !in pools)
  }

  /** Adds the queue of every record of `todo`, in order, to `pools`. The
      queue is built before the kind is added, so a record that cannot be
      built fails before a duplicate kind is noticed. */
  function Fill<K(==), P(==)>(todo: seq<ObjectPool<K, P>>, pools: map<K, seq<Obj<P>>>, nextId: nat)
    : (r: Result<(map<K, seq<Obj<P>>>, nat), PoolError>)
    ensures r.Success? ==> nextId <= r.value.1 && pools.Keys <= r.value.0.Keys
    decreases |todo|
  {
    if todo == [] then Success((pools, nextId))
    else
      var c := todo[0];
      match CreatePool(c, nextId)
      case Failure(e) => Failure(e)
      case Success(q) =>
        if c.pool in pools then Failure(DuplicatePool)
        else Fill(todo[1..], pools[c.pool := q], nextId + |q|)
  }

  /** Filling succeeds exactly when every record can be built and names a
      kind not yet present. */
  lemma {:induction false} FillSucceedsIff<K, P>(todo: seq<ObjectPool<K, P>>, pools: map<K, seq<Obj<P>>>, nextId: nat)
    ensures Fill(todo, pools, nextId).Success? <==> Fillable(todo, pools)
    decreases |todo|
  {
    if todo != [] {
      var c := todo[0];
      assert forall i :: 1 <= i < |todo| ==> todo[i] == todo[1..][i - 1];
      if Creatable(c) && c.pool !in pools {
        var q: seq<Obj<P>> := CreatePool(c, nextId).value;
        FillSucceedsIff(todo[1..], pools[c.pool := q], nextId + |q|);
        if Fillable(todo[1..], pools[c.pool := q]) {
          assert Fillable(todo, pools) by {
            forall i, j | 0 <= i < j < |todo| ensures todo[i].pool != todo[j].pool {
              if i > 0 {
                assert todo[i] == todo[1..][i - 1] && todo[j] == todo[1..][j - 1];
              } else {
                assert todo[j] == todo[1..][j - 1];
              }
            }
          }
        } else {
          if Fillable(todo, pools) {
            assert forall i :: 0 <= i < |todo[1..]| ==> todo[1..][i] == todo[i + 1];
            assert Fillable(todo[1..], pools[c.pool := q]);
          }
        }
      }
    }
  }

  /** A successful fill keeps the queues it started with and adds one fresh
      queue per record, under the record's kind. */
  lemma {:induction false} FillBuildsFreshQueues<K, P>(todo: seq<ObjectPool<K, P>>, pools: map<K, seq<Obj<P>>>, nextId: nat)
    requires Fill(todo, pools, nextId).Success?
    ensures var p := Fill(todo, pools, nextId).value.0;
            && p.Keys == pools.Keys + Kinds(todo)
            && (forall k :: k in pools ==> p[k] == pools[k])
            && (forall i :: 0 <= i < |todo| ==> FreshQueue(todo[i], p[todo[i].pool]))
    decreases |todo|
  {
    if todo != [] {
      var c := todo[0];
      var q: seq<Obj<P>> := CreatePool(c, nextId).value;
      var pools' := pools[c.pool := q];
      FillBuildsFreshQueues(todo[1..], pools', nextId + |q|);
      var p := Fill(todo, pools, nextId).value.0;
      assert p == Fill(todo[1..], pools', nextId + |q|).value.0;
      assert Kinds(todo) == {c.pool} + Kinds(todo[1..]) by {
        assert forall i :: 1 <= i < |todo| ==> todo[i] == todo[1..][i - 1];
        assert forall i :: 0 <= i < |todo[1..]| ==> todo[1..][i] == todo[i + 1];
      }
      forall i | 0 <= i < |todo| ensures FreshQueue(todo[i], p[todo[i].pool]) {
        if i > 0 {
          assert todo[i] == todo[1..][i - 1];
        } else {
          assert p[c.pool] == q;
        }
      }
    }
  }

  /** Builds the pooler from its configuration, as the component's start-up
      does. */
  function Init<K(==), P(==)>(configs: seq<ObjectPool<K, P>>): (r: Result<Pooler<K, P>, PoolError>)
    ensures r.Success? <==> Fillable(configs, map[])
    ensures r.Success? ==> r.value.configs == configs && Valid(r.value)
    ensures r.Success? ==> forall i :: 0 <= i < |configs| ==> FreshQueue(configs[i], r.value.pools[configs[i].pool])
  {
    FillSucceedsIff(configs, map[], 0);
    match Fill(configs, map[], 0)
    case Failure(e) => Failure(e)
    case Success((pools, nextId)) =>
      FillIdsWellFormed(configs, map[], 0);
      FillBuildsFreshQueues(configs, map[], 0);
      var s := Pooler(configs, pools, nextId);
      assert forall i :: 0 <= i < |configs| ==> WithinCapacity(configs[i], |pools[configs[i].pool]|);
      Success(s)
  }

  /** Adding a queue of new identities `nextId`, `nextId + 1`, ... under an
      unused kind keeps the identities well formed. */
  lemma AddFreshQueue<K, P>(pools: map<K, seq<Obj<P>>>, nextId: nat, k: K, q: seq<Obj<P>>)
    requires IdsWellFormed(pools, nextId) && k !in pools
    requires forall i :: 0 <= i < |q| ==> q[i].id == nextId + i
    ensures IdsWellFormed(pools[k := q], nextId + |q|)
  {
    var pools' := pools[k := q];
    forall k1, k2 | k1 in pools' && k2 in pools' && k1 != k2
      ensures DisjointIds(pools'[k1], pools'[k2])
    {
      if k1 == k {
        assert forall j :: 0 <= j < |pools[k2]| ==> pools[k2][j].id < nextId;
      } else if k2 == k {
        assert forall j :: 0 <= j < |pools[k1]| ==> pools[k1][j].id < nextId;
      }
    }
  }

  /** Filling keeps every identity distinct and below the counter. */
  lemma {:induction false} FillIdsWellFormed<K, P>(todo: seq<ObjectPool<K, P>>, pools: map<K, seq<Obj<P>>>, nextId: nat)
    requires IdsWellFormed(pools, nextId)
    requires Fill(todo, pools, nextId).Success?
    ensures var (p, n) := Fill(todo, pools, nextId).value; IdsWellFormed(p, n)
    decreases |todo|
  {
    if todo != [] {
      var c := todo[0];
      var q: seq<Obj<P>> := CreatePool(c, nextId).value;
      AddFreshQueue(pools, nextId, c.pool, q);
      FillIdsWellFormed(todo[1..], pools[c.pool := q], nextId + |q|);
    }
  }

  // ---------------------------------------------------------------------------
  // Spawn

  /** The index of the first inactive instance in queue order, if any. What
      the index means is stated by `TryGetInactiveIsFirst`. */
  function TryGetInactive<P(==)>(q: seq<Obj<P>>): (r: Option<nat>)
    ensures r.Some? ==> r.value < |q|
  {
    FirstInactiveFrom(q, 0)
  }

  /** The first inactive instance at or after position `from`. */
  function FirstInactiveFrom<P(==)>(q: seq<Obj<P>>, from: nat): (r: Option<nat>)
    requires from <= |q|
    ensures r.Some? ==> from <= r.value < |q|
    decreases |q| - from
  {
    if from == |q| then None
    else if !q[from].active then Some(from)
    else FirstInactiveFrom(q, from + 1)
  }

  /** The search from `from` finds the first inactive instance at or after
      `from`, and finds nothing exactly when all of them are active. */
  lemma {:induction false} FirstInactiveFromIsFirst<P>(q: seq<Obj<P>>, from: nat)
    requires from <= |q|
    ensures var r := FirstInactiveFrom(q, from);
            && (r.Some? ==> !q[r.value].active && forall j :: from <= j < r.value ==> q[j].active)
            && (r.None? <==> forall j :: from <= j < |q| ==> q[j].active)
    decreases |q| - from
  {
    if from < |q| && q[from].active {
      FirstInactiveFromIsFirst(q, from + 1);
    }
  }

  /** `TryGetInactive` returns the first inactive instance in queue order,
      and nothing exactly when every instance is active. */
  lemma TryGetInactiveIsFirst<P>(q: seq<Obj<P>>)
    ensures var r := TryGetInactive(q);
            && (r.Some? ==> !q[r.value].active && forall j :: 0 <= j < r.value ==> q[j].active)
            && (r.None? <==> forall j :: 0 <= j < |q| ==> q[j].active)
  {
    FirstInactiveFromIsFirst(q, 0);
  }

  /** Whether kind `k` may grow by one instance; fails when no record names
      the kind. */
  function IsExpandable<K(==), P(==)>(s: Pooler<K, P>, k: K): (r: Result<bool, PoolError>)
    requires k in s.pools
    ensures r.Failure? <==> FindConfig(s.configs, k).None?
    ensures r.Failure? ==> r.error == PoolDoesNotExist
    ensures r.Success? ==> (r.value <==> FindConfig(s.configs, k).value.autoExpand
                                         && |s.pools[k]| < FindConfig(s.configs, k).value.maxExpandSize)
  {
    match FindConfig(s.configs, k)
    case None => Failure(PoolDoesNotExist)
    case Some(c) => Success(c.autoExpand && |s.pools[k]| < c.maxExpandSize)
  }

  /** Clones the kind's prefab, deactivates the clone and appends it to the
      back of the queue. The clone is made before the queue's folder is
      looked up, and an empty queue has no folder. */
  function AddPoolObject<K(==), P(==)>(s: Pooler<K, P>, k: K): (r: Result<Picked<K, P>, PoolError>)
    requires k in s.pools
    ensures r.Success? <==> FindConfig(s.configs, k).Some? && FindConfig(s.configs, k).value.prefab.Some? && |s.pools[k]| > 0
    ensures r.Success? ==>
              && r.value.pooler == s.(pools := s.pools[k := s.pools[k] + [Instantiate(FindConfig(s.configs, k).value.prefab.value, s.nextId)]],
                                     nextId := s.nextId + 1)
              && r.value.index == |s.pools[k]|
  {
    match FindConfig(s.configs, k)
    case None => Failure(PoolDoesNotExist)
    case Some(c) =>
      if c.prefab.None? then Failure(NullPrefab)
      else if |s.pools[k]| == 0 then Failure(PoolIsEmpty)
      else
        var o := Instantiate(c.prefab.value, s.nextId);
        Success(Picked(s.(pools := s.pools[k := s.pools[k] + [o]], nextId := s.nextId + 1), |s.pools[k]|))
  }

  /** Chooses the instance to hand out: the first inactive one; else, when the
      kind may grow, a new one; else the front one, moved to the back. */
  function GetAppropriatePoolObject<K(==), P(==)>(s: Pooler<K, P>, k: K): (r: Result<Picked<K, P>, PoolError>)
    requires k in s.pools
    ensures r.Success? ==> k in r.value.pooler.pools && r.value.index < |r.value.pooler.pools[k]|
    ensures r.Success? ==> r.value.pooler.configs == s.configs
    ensures r.Success? ==> r.value.pooler.pools == s.pools[k := r.value.pooler.pools[k]]
    ensures |s.pools[k]| == 0 ==> r.Failure?
  {
    var q := s.pools[k];
    match TryGetInactive(q)
    case Some(i) => Success(Picked(s, i))
    case None =>
      match IsExpandable(s, k)
      case Failure(e) => Failure(e)
      case Success(grow) =>
        if grow then AddPoolObject(s, k)
        else if |q| == 0 then Failure(QueueIsEmpty)
        else Success(Picked(s.(pools := s.pools[k := q[1..] + [q[0]]]), |q| - 1))
  }

  /** The instance after being handed out: active, at the requested placement. */
  function Place<P(==)>(o: Obj<P>, placement: P): (r: Obj<P>)
    ensures r.id == o.id && r.active && r.placement == placement
  {
    o.(active := true, placement := placement)
  }

  /** Hands out an instance of kind `k` at `placement`. An active instance
      chosen by round-robin reuse is deactivated before it is placed and
      activated again, so its net state is the same as any other choice. */
  function Spawn<K(==), P(==)>(s: Pooler<K, P>, k: K, placement: P): (r: Result<Spawned<K, P>, PoolError>)
    ensures k !in s.pools ==> r == Failure(PoolDoesNotExist)
    ensures k in s.pools && |s.pools[k]| == 0 ==> r.Failure?
    ensures r.Success? ==>
              var t := r.value.pooler;
              && t.configs == s.configs
              && t.pools.Keys == s.pools.Keys
              && (forall k' :: k' in s.pools && k' != k ==> t.pools[k'] == s.pools[k'])
              && r.value.obj.active
              && r.value.obj.placement == placement
              && r.value.obj in t.pools[k]
  {
    if k !in s.pools then Failure(PoolDoesNotExist)
    else
      match GetAppropriatePoolObject(s, k)
      case Failure(e) => Failure(e)
      case Success(Picked(t, i)) =>
        var o := Place(t.pools[k][i], placement);
        var q := t.pools[k][i := o];
        assert q[i] == o;
        Success(Spawned(t.(pools := t.pools[k := q]), o))
  }

  // ---------------------------------------------------------------------------
  // Reclaim

  /** The queue with every instance deactivated and nothing else changed. */
  function Deactivated<P(==)>(q: seq<Obj<P>>): (r: seq<Obj<P>>)
    ensures |r| == |q|
    ensures forall i :: 0 <= i < |q| ==> !r[i].active
    ensures forall i :: 0 <= i < |q| ==> r[i].id == q[i].id && r[i].placement == q[i].placement
  {
    seq(|q|, i requires 0 <= i < |q| => q[i].(active := false))
  }

  /** Deactivates every instance of kind `k`; an unregistered kind is a
      missing key of the pool map. */
  function DisablePool<K(==), P(==)>(s: Pooler<K, P>, k: K): (r: Result<Pooler<K, P>, PoolError>)
    ensures r.Failure? <==> k !in s.pools
    ensures r.Failure? ==> r.error == KeyNotFound
    ensures r.Success? ==>
              && r.value.configs == s.configs && r.value.nextId == s.nextId
              && r.value.pools.Keys == s.pools.Keys
              && (forall k' :: k' in s.pools && k' != k ==> r.value.pools[k'] == s.pools[k'])
              && Ids(r.value.pools[k]) == Ids(s.pools[k])
              && (forall i :: 0 <= i < |s.pools[k]| ==>
                    !r.value.pools[k][i].active && r.value.pools[k][i].placement == s.pools[k][i].placement)
  {
    if k !in s.pools then Failure(KeyNotFound)
    else Success(s.(pools := s.pools[k := Deactivated(s.pools[k])]))
  }

  /** Deactivates every instance of every kind, one kind at a time. */
  method DisableAllObjects<K(==), P(==)>(s: Pooler<K, P>) returns (t: Pooler<K, P>)
    ensures t.configs == s.configs && t.nextId == s.nextId
    ensures t.pools.Keys == s.pools.Keys
    ensures forall k :: k in s.pools ==> |t.pools[k]| == |s.pools[k]| && Ids(t.pools[k]) == Ids(s.pools[k])
    ensures forall k, i :: k in s.pools && 0 <= i < |s.pools[k]| ==>
              !t.pools[k][i].active && t.pools[k][i].placement == s.pools[k][i].placement
    ensures Valid(s) ==> Valid(t)
  {
    t := s;
    var todo := s.pools.Keys;
    while todo != {}
      invariant todo <= s.pools.Keys
      invariant t.configs == s.configs && t.nextId == s.nextId
      invariant t.pools.Keys == s.pools.Keys
      invariant forall k :: k in todo ==> t.pools[k] == s.pools[k]
      invariant forall k :: k in s.pools ==> |t.pools[k]| == |s.pools[k]| && Ids(t.pools[k]) == Ids(s.pools[k])
      invariant forall k, i :: k in s.pools && k !in todo && 0 <= i < |s.pools[k]| ==>
                  !t.pools[k][i].active && t.pools[k][i].placement == s.pools[k][i].placement
      decreases todo
    {
      var k :| k in todo;
      var r := DisablePool(t, k);
      t := r.value;
      todo := todo - {k};
    }
    forall k1, k2 | k1 in t.pools && k2 in t.pools && k1 != k2 && DisjointIds(s.pools[k1], s.pools[k2])
      ensures DisjointIds(t.pools[k1], t.pools[k2])
    {
      assert forall i :: 0 <= i < |t.pools[k1]| ==> t.pools[k1][i].id == Ids(s.pools[k1])[i];
      assert forall i :: 0 <= i < |t.pools[k2]| ==> t.pools[k2][i].id == Ids(s.pools[k2])[i];
    }
  }

  /** A caller switching an instance on or off itself: the instance with
      identity `id`, wherever it is, takes the flag; nothing else changes. */
  function SetActive<K(==), P(==)>(s: Pooler<K, P>, id: nat, active: bool): (r: Pooler<K, P>)
    ensures r.configs == s.configs && r.nextId == s.nextId
    ensures r.pools.Keys == s.pools.Keys
    ensures forall k :: k in s.pools ==> |r.pools[k]| == |s.pools[k]| && Ids(r.pools[k]) == Ids(s.pools[k])
    ensures forall k, i :: k in s.pools && 0 <= i < |s.pools[k]| ==>
              && r.pools[k][i].placement == s.pools[k][i].placement
              && r.pools[k][i].active == (if s.pools[k][i].id == id then active else s.pools[k][i].active)
  {
    var pools := map k | k in s.pools ::
      seq(|s.pools[k]|, i requires 0 <= i < |s.pools[k]| =>
        if s.pools[k][i].id == id then s.pools[k][i].(active := active) else s.pools[k][i]);
    s.(pools := pools)
  }
}

=== FILE: pool_config.dfy ===
/** The serialized pool configuration records and their validation. */
module PoolConfig {
  import opened Wrappers

  /** A prefab is the template an instance is cloned from; the model keeps only
      the placement a fresh clone starts with. */
  datatype Prefab<P> = Prefab(placement: P)

  /** One configured pool: its kind, its (possibly unset) prefab, how many
      instances to create up front, whether it may grow, and how far. */
  datatype ObjectPool<K, P> = ObjectPool(
    pool: K,
    prefab: Option<Prefab<P>>,
    initialSize: int,
    autoExpand: bool,
    maxExpandSize: int)

  /** The field initialisers of a record built with `new ObjectPool()`. */
  const DefaultInitialSize: int := 5
  const DefaultMaxExpandSize: int := 20

  function NewObjectPool<K, P>(pool: K): (c: ObjectPool<K, P>)
    ensures c.pool == pool && c.prefab.None? && !c.autoExpand
    ensures InRange(c)
  {
    ObjectPool(pool, None, DefaultInitialSize, false, DefaultMaxExpandSize)
  }

  /** The error messages validation logs; none of them stops anything. */
  datatype Diagnostic<K> =
    | InitialSizeNotPositive(pool: K)
    | MaxExpandSizeNotPositive(pool: K)
    | PrefabIsNull(pool: K)

  /** Both sizes are at least one. Nothing relates the two sizes. */
  predicate InRange<K, P>(c: ObjectPool<K, P>)
  {
    c.initialSize >= 1 && c.maxExpandSize >= 1
  }

  function ValidateInitialSize<K, P>(c: ObjectPool<K, P>): (r: ObjectPool<K, P>)
    ensures r.initialSize >= 1
    ensures c.initialSize >= 1 ==> r == c
    ensures r.initialSize == 1 || r.initialSize == c.initialSize
    ensures r == c.(initialSize := r.initialSize)
  {
    if c.initialSize < 1 then c.(initialSize := 1) else c
  }

  function ValidateMaxExpandSize<K, P>(c: ObjectPool<K, P>): (r: ObjectPool<K, P>)
    ensures r.maxExpandSize >= 1
    ensures c.maxExpandSize >= 1 ==> r == c
    ensures r.maxExpandSize == 1 || r.maxExpandSize == c.maxExpandSize
    ensures r == c.(maxExpandSize := r.maxExpandSize)
  {
    if c.maxExpandSize < 1 then c.(maxExpandSize := 1) else c
  }

  /** The messages one record produces, in the order the checks run. */
  function DiagnosticsOf<K, P>(c: ObjectPool<K, P>): (d: seq<Diagnostic<K>>)
    ensures d == [] <==> InRange(c) && c.prefab.Some?
  {
    (if c.initialSize < 1 then [InitialSizeNotPositive(c.pool)] else [])
    + (if c.maxExpandSize < 1 then [MaxExpandSizeNotPositive(c.pool)] else [])
    + (if c.prefab.None? then [PrefabIsNull(c.pool)] else [])
  }

  /** Validates one record: clamps both sizes and reports what it clamped and
      whether the prefab is missing. */
  function ValidateOne<K, P>(c: ObjectPool<K, P>): (r: (ObjectPool<K, P>, seq<Diagnostic<K>>))
    ensures InRange(r.0)
    ensures r.0.pool == c.pool && r.0.prefab == c.prefab && r.0.autoExpand == c.autoExpand
    ensures InRange(c) ==> r.0 == c
    ensures r.0.initialSize == (if c.initialSize < 1 then 1 else c.initialSize)
    ensures r.0.maxExpandSize == (if c.maxExpandSize < 1 then 1 else c.maxExpandSize)
    ensures r.1 == DiagnosticsOf(c)
  {
    (ValidateMaxExpandSize(ValidateInitialSize(c)), DiagnosticsOf(c))
  }

  /** Validates every configured record in order, in place, collecting the
      diagnostics. It never fails. */
  function ValidateInputData<K, P>(configs: seq<ObjectPool<K, P>>): (r: (seq<ObjectPool<K, P>>, seq<Diagnostic<K>>))
    ensures |r.0| == |configs|
    ensures forall i :: 0 <= i < |configs| ==> r.0[i] == ValidateOne(configs[i]).0
    ensures r.1 == [] <==> forall i :: 0 <= i < |configs| ==> InRange(configs[i]) && configs[i].prefab.Some?
  {
    if configs == [] then ([], [])
    else
      var (head, d) := ValidateOne(configs[0]);
      var (tail, ds) := ValidateInputData(configs[1..]);
      assert forall i :: 1 <= i < |configs| ==> configs[i] == configs[1..][i - 1];
      ([head] + tail, d + ds)
  }

  /** After validation every record is in range, and kinds, prefabs and
      expansion flags are untouched. */
  lemma ValidatedRecordsInRange<K, P>(configs: seq<ObjectPool<K, P>>)
    ensures var v := ValidateInputData(configs).0;
            forall i :: 0 <= i < |v| ==>
              && InRange(v[i])
              && v[i].pool == configs[i].pool
              && v[i].prefab == configs[i].prefab
              && v[i].autoExpand == configs[i].autoExpand
  {
  }

  /** Validating validated data changes nothing, and only missing prefabs are
      still reported. */
  lemma ValidateIdempotent<K, P>(configs: seq<ObjectPool<K, P>>)
    ensures var v := ValidateInputData(configs).0;
            ValidateInputData(v).0 == v
    ensures var v := ValidateInputData(configs).0;
            ValidateInputData(v).1 == [] <==> forall i :: 0 <= i < |configs| ==> configs[i].prefab.Some?
    ensures var v := ValidateInputData(configs).0;
            forall d :: d in ValidateInputData(v).1 ==> d.PrefabIsNull?
  {
    var v := ValidateInputData(configs).0;
    assert ValidateInputData(v).0 == v;
    InRangeLogsOnlyPrefabs(v);
  }

  /** Records already in range can only be reported for a missing prefab. */
  lemma {:induction false} InRangeLogsOnlyPrefabs<K, P>(v: seq<ObjectPool<K, P>>)
    requires forall i :: 0 <= i < |v| ==> InRange(v[i])
    ensures forall d :: d in ValidateInputData(v).1 ==> d.PrefabIsNull?
    decreases |v|
  {
    if v != [] {
      assert forall i :: 0 <= i < |v[1..]| ==> v[1..][i] == v[i + 1];
      InRangeLogsOnlyPrefabs(v[1..]);
    }
  }

  /** Validation never relates the two sizes: a record whose initial size
      exceeds its maximum expand size passes through unchanged. */
  lemma ValidationKeepsInitialAboveMax<K, P>(c: ObjectPool<K, P>)
    requires c.maxExpandSize >= 1 && c.initialSize > c.maxExpandSize
    ensures ValidateOne(c).0 == c && ValidateOne(c).0.initialSize > ValidateOne(c).0.maxExpandSize
  {
  }
}

=== FILE: pooler_properties.dfy ===
/** Properties of the pool engine: what each spawn tier does to its kind's
    queue, the invariant every operation keeps, the round-robin order of
    forced reuse, and the reclaim operations. */
module PoolerProperties {
  import opened Wrappers
  import opened PoolConfig
  import opened ObjectPooler

  predicate AllActive<P>(q: seq<Obj<P>>)
  {
    forall j :: 0 <= j < |q| ==> q[j].active
  }

  /** The queue rotated left by `n` places. */
  function RotateLeft<T>(xs: seq<T>, n: nat): (r: seq<T>)
    requires n <= |xs|
    ensures |r| == |xs|
  {
    xs[n..] + xs[..n]
  }

  // ---------------------------------------------------------------------------
  // The three tiers of Spawn

  /** Tier 1: when some instance is inactive, the first inactive one in queue
      order is handed out in place; the queue keeps its order and length and
      no instance is created. */
  lemma SpawnReusesFirstInactive<K, P>(s: Pooler<K, P>, k: K, placement: P, i: nat)
    requires k in s.pools && i < |s.pools[k]|
    requires !s.pools[k][i].active && forall j :: 0 <= j < i ==> s.pools[k][j].active
    ensures Spawn(s, k, placement).Success?
    ensures var sp := Spawn(s, k, placement).value;
            && sp.obj == Place(s.pools[k][i], placement)
            && sp.pooler == s.(pools := s.pools[k := s.pools[k][i := sp.obj]])
  {
    TryGetInactiveIsFirst(s.pools[k]);
    var r := TryGetInactive(s.pools[k]);
    assert r == Some(i);
  }

  /** Tier 2: when every instance is active and the kind may grow, exactly
      one new instance, with the next identity, is appended and handed out.
      An empty queue cannot grow. */
  lemma SpawnExpands<K, P>(s: Pooler<K, P>, k: K, placement: P)
    requires k in s.pools && AllActive(s.pools[k])
    requires IsExpandable(s, k) == Success(true)
    ensures Spawn(s, k, placement).Success?
        <==> |s.pools[k]| > 0 && FindConfig(s.configs, k).value.prefab.Some?
    ensures FindConfig(s.configs, k).value.prefab.None? ==> Spawn(s, k, placement) == Failure(NullPrefab)
    ensures FindConfig(s.configs, k).value.prefab.Some? && |s.pools[k]| == 0 ==> Spawn(s, k, placement) == Failure(PoolIsEmpty)
    ensures Spawn(s, k, placement).Success? ==>
              var sp := Spawn(s, k, placement).value;
              && sp.obj == Obj(s.nextId, true, placement)
              && sp.pooler == s.(pools := s.pools[k := s.pools[k] + [sp.obj]], nextId := s.nextId + 1)
  {
    var q := s.pools[k];
    TryGetInactiveIsFirst(q);
    assert TryGetInactive(q).None?;
    if Spawn(s, k, placement).Success? {
      var a := AddPoolObject(s, k).value;
      var o := Instantiate(FindConfig(s.configs, k).value.prefab.value, s.nextId);
      assert a.pooler.pools[k] == q + [o];
      var o' := Place(o, placement);
      assert o' == Obj(s.nextId, true, placement);
      assert (q + [o])[|q| := o'] == q + [o'];
      assert a.pooler.pools[k := q + [o']] == s.pools[k := q + [o']];
    }
  }

  /** Tier 3: when every instance is active and the kind may not grow, the
      front instance is moved to the back and handed out; the queue is
      rotated by one, keeping its length and its instances. */
  lemma SpawnRecycles<K, P>(s: Pooler<K, P>, k: K, placement: P)
    requires k in s.pools && AllActive(s.pools[k])
    requires IsExpandable(s, k) == Success(false)
    ensures Spawn(s, k, placement).Success? <==> |s.pools[k]| > 0
    ensures |s.pools[k]| == 0 ==> Spawn(s, k, placement) == Failure(QueueIsEmpty)
    ensures Spawn(s, k, placement).Success? ==>
              var sp := Spawn(s, k, placement).value;
              var q := s.pools[k];
              && sp.obj == Place(q[0], placement)
              && sp.pooler == s.(pools := s.pools[k := q[1..] + [sp.obj]])
              && Ids(sp.pooler.pools[k]) == RotateLeft(Ids(q), 1)
              && multiset(Ids(sp.pooler.pools[k])) == multiset(Ids(q))
              && sp.pooler.nextId == s.nextId
  {
    var q := s.pools[k];
    TryGetInactiveIsFirst(q);
    assert TryGetInactive(q).None?;
    if |q| > 0 {
      var sp := Spawn(s, k, placement).value;
      var q' := sp.pooler.pools[k];
      assert q' == q[1..] + [Place(q[0], placement)];
      assert Ids(q') == RotateLeft(Ids(q), 1) by {
        forall j | 0 <= j < |q'| ensures Ids(q')[j] == RotateLeft(Ids(q), 1)[j] {
          if j < |q'| - 1 {
            assert q'[j] == q[j + 1];
          }
        }
      }
      calc {
        multiset(Ids(q'));
        multiset(Ids(q)[1..] + Ids(q)[..1]);
        multiset(Ids(q)[1..]) + multiset(Ids(q)[..1]);
        { assert Ids(q) == Ids(q)[..1] + Ids(q)[1..]; }
        multiset(Ids(q));
      }
    }
  }

  /** Whatever the tier, every instance of the kind other than the handed-out
      one is still in the queue with its flag and placement, and the queue
      grows by at most one. */
  lemma SpawnTouchesOnlyReturned<K, P>(s: Pooler<K, P>, k: K, placement: P)
    requires k in s.pools && NoDuplicates(Ids(s.pools[k]))
    requires Spawn(s, k, placement).Success?
    ensures var sp := Spawn(s, k, placement).value;
            forall j :: 0 <= j < |s.pools[k]| && s.pools[k][j].id != sp.obj.id ==> s.pools[k][j] in sp.pooler.pools[k]
    ensures var sp := Spawn(s, k, placement).value;
            |s.pools[k]| <= |sp.pooler.pools[k]| <= |s.pools[k]| + 1
  {
    var q := s.pools[k];
    var sp := Spawn(s, k, placement).value;
    var q' := sp.pooler.pools[k];
    TryGetInactiveIsFirst(q);
    match TryGetInactive(q)
    case Some(i) =>
      SpawnReusesFirstInactive(s, k, placement, i);
      forall j | 0 <= j < |q| && q[j].id != sp.obj.id ensures q[j] in q' {
        assert q'[j] == q[j];
      }
    case None =>
      if IsExpandable(s, k) == Success(true) {
        SpawnExpands(s, k, placement);
        forall j | 0 <= j < |q| ensures q[j] in q' {
          assert q'[j] == q[j];
        }
      } else {
        SpawnRecycles(s, k, placement);
        forall j | 0 <= j < |q| && q[j].id != sp.obj.id ensures q[j] in q' {
          assert j > 0;
          assert q'[j - 1] == q[j];
        }
      }
  }

  // ---------------------------------------------------------------------------
  // The invariant

  /** Replacing one kind's queue by a queue of distinct identities, each either
      already in that queue or newly issued, keeps the identities well formed. */
  lemma ReplaceQueueKeepsIds<K, P>(pools: map<K, seq<Obj<P>>>, nextId: nat, k: K, q': seq<Obj<P>>, nextId': nat)
    requires IdsWellFormed(pools, nextId) && k in pools && nextId <= nextId'
    requires NoDuplicates(Ids(q'))
    requires forall j :: 0 <= j < |q'| ==> q'[j].id in Ids(pools[k]) || nextId <= q'[j].id < nextId'
    ensures IdsWellFormed(pools[k := q'], nextId')
  {
    var pools' := pools[k := q'];
    forall k1, k2 | k1 in pools' && k2 in pools' && k1 != k2
      ensures DisjointIds(pools'[k1], pools'[k2])
    {
      if k1 == k {
        forall i, j | 0 <= i < |q'| && 0 <= j < |pools[k2]| ensures q'[i].id != pools[k2][j].id {
          if q'[i].id in Ids(pools[k]) {
            var m :| 0 <= m < |pools[k]| && Ids(pools[k])[m] == q'[i].id;
            assert DisjointIds(pools[k], pools[k2]);
          }
        }
      } else if k2 == k {
        forall i, j | 0 <= i < |pools[k1]| && 0 <= j < |q'| ensures pools[k1][i].id != q'[j].id {
          if q'[j].id in Ids(pools[k]) {
            var m :| 0 <= m < |pools[k]| && Ids(pools[k])[m] == q'[j].id;
            assert DisjointIds(pools[k1], pools[k]);
          }
        }
      }
    }
  }

  lemma RotationKeepsNoDuplicates(xs: seq<nat>)
    requires |xs| > 0 && NoDuplicates(xs)
    ensures NoDuplicates(RotateLeft(xs, 1))
  {
    var r := RotateLeft(xs, 1);
    forall i, j | 0 <= i < j < |r| ensures r[i] != r[j] {
      assert r[i] == xs[i + 1];
      if j < |r| - 1 {
        assert r[j] == xs[j + 1];
      } else {
        assert r[j] == xs[0];
      }
    }
  }

  /** Replacing one kind's queue keeps the invariant when the new queue has
      distinct identities, each old or newly issued, and a length the kind's
      record allows. */
  lemma ReplaceQueueKeepsValid<K, P>(s: Pooler<K, P>, k: K, q': seq<Obj<P>>, nextId': nat)
    requires Valid(s) && k in s.pools && s.nextId <= nextId'
    requires NoDuplicates(Ids(q'))
    requires forall j :: 0 <= j < |q'| ==> q'[j].id in Ids(s.pools[k]) || s.nextId <= q'[j].id < nextId'
    requires forall i :: 0 <= i < |s.configs| && s.configs[i].pool == k ==> WithinCapacity(s.configs[i], |q'|)
    ensures Valid(s.(pools := s.pools[k := q'], nextId := nextId'))
  {
    ReplaceQueueKeepsIds(s.pools, s.nextId, k, q', nextId');
  }

  lemma ReusePreservesValid<K, P>(s: Pooler<K, P>, k: K, placement: P, i: nat)
    requires Valid(s) && k in s.pools && i < |s.pools[k]|
    requires !s.pools[k][i].active && forall j :: 0 <= j < i ==> s.pools[k][j].active
    ensures Spawn(s, k, placement).Success? && Valid(Spawn(s, k, placement).value.pooler)
  {
    SpawnReusesFirstInactive(s, k, placement, i);
    var q := s.pools[k];
    var q' := q[i := Place(q[i], placement)];
    assert Ids(q') == Ids(q);
    ReplaceQueueKeepsValid(s, k, q', s.nextId);
    assert s.(pools := s.pools[k := q'], nextId := s.nextId) == Spawn(s, k, placement).value.pooler;
  }

  /** Appending one instance with the next identity to a kind that may grow
      keeps the invariant. */
  lemma AppendKeepsValid<K, P>(s: Pooler<K, P>, k: K, o: Obj<P>)
    requires Valid(s) && k in s.pools && o.id == s.nextId
    requires IsExpandable(s, k) == Success(true)
    ensures Valid(s.(pools := s.pools[k := s.pools[k] + [o]], nextId := s.nextId + 1))
  {
    var q := s.pools[k];
    var q' := q + [o];
    assert Ids(q') == Ids(q) + [s.nextId];
    forall j | 0 <= j < |q'| ensures q'[j].id in Ids(q) || s.nextId <= q'[j].id < s.nextId + 1 {
      if j < |q| {
        assert q'[j].id == Ids(q)[j];
      }
    }
    forall i | 0 <= i < |s.configs| && s.configs[i].pool == k ensures WithinCapacity(s.configs[i], |q'|) {
      FindConfigOfDistinct(s.configs, i);
    }
    ReplaceQueueKeepsValid(s, k, q', s.nextId + 1);
  }

  lemma ExpandPreservesValid<K, P>(s: Pooler<K, P>, k: K, placement: P)
    requires Valid(s) && k in s.pools && AllActive(s.pools[k])
    requires IsExpandable(s, k) == Success(true)
    requires Spawn(s, k, placement).Success?
    ensures Valid(Spawn(s, k, placement).value.pooler)
  {
    SpawnExpands(s, k, placement);
    AppendKeepsValid(s, k, Obj(s.nextId, true, placement));
  }

  lemma RecyclePreservesValid<K, P>(s: Pooler<K, P>, k: K, placement: P)
    requires Valid(s) && k in s.pools && AllActive(s.pools[k])
    requires IsExpandable(s, k) == Success(false)
    requires Spawn(s, k, placement).Success?
    ensures Valid(Spawn(s, k, placement).value.pooler)
  {
    SpawnRecycles(s, k, placement);
    var q := s.pools[k];
    var q' := q[1..] + [Place(q[0], placement)];
    assert Ids(q') == RotateLeft(Ids(q), 1);
    RotationKeepsNoDuplicates(Ids(q));
    forall j | 0 <= j < |q'| ensures q'[j].id in Ids(q) {
      if j < |q'| - 1 {
        assert q'[j].id == Ids(q)[j + 1];
      } else {
        assert q'[j].id == Ids(q)[0];
      }
    }
    ReplaceQueueKeepsValid(s, k, q', s.nextId);
    assert s.(pools := s.pools[k := q'], nextId := s.nextId) == s.(pools := s.pools[k := q']);
  }

  /** Every spawn keeps the pooler's invariant: one queue per configured kind,
      each within its capacity, with distinct identities below the counter. */
  lemma SpawnPreservesValid<K, P>(s: Pooler<K, P>, k: K, placement: P)
    requires Valid(s)
    requires Spawn(s, k, placement).Success?
    ensures Valid(Spawn(s, k, placement).value.pooler)
  {
    var q := s.pools[k];
    TryGetInactiveIsFirst(q);
    match TryGetInactive(q)
    case Some(i) =>
      ReusePreservesValid(s, k, placement, i);
    case None =>
      if IsExpandable(s, k) == Success(true) {
        ExpandPreservesValid(s, k, placement);
      } else {
        RecyclePreservesValid(s, k, placement);
      }
  }

  /** Under the invariant, the capacity rule of every configured kind: a kind
      that may not grow holds exactly its initial size, and no kind holds more
      than the larger of its two sizes. */
  lemma CapacityOf<K, P>(s: Pooler<K, P>, i: nat)
    requires Valid(s) && i < |s.configs|
    ensures var c := s.configs[i];
            var n := |s.pools[c.pool]|;
            && c.initialSize <= n
            && (!c.autoExpand ==> n == c.initialSize)
            && (n <= c.initialSize || n <= c.maxExpandSize)
  {
  }

  /** Spawning never shrinks any queue: the handed-out kind's queue keeps or
      grows its length and every other queue is unchanged. */
  lemma SpawnNeverShrinks<K, P>(s: Pooler<K, P>, k: K, placement: P)
    requires k in s.pools
    requires Spawn(s, k, placement).Success?
    ensures var t := Spawn(s, k, placement).value.pooler;
            forall k' :: k' in s.pools ==> k' in t.pools && |s.pools[k']| <= |t.pools[k']|
  {
  }

  // ---------------------------------------------------------------------------
  // Spawning never fails once the pools are stocked

  /** Every configured kind has at least one instance and a prefab, as after
      initialising validated records. */
  ghost predicate Stocked<K, P>(s: Pooler<K, P>)
  {
    forall i :: 0 <= i < |s.configs| ==> s.configs[i].pool in s.pools && |s.pools[s.configs[i].pool]| >= 1 && s.configs[i].prefab.Some?
  }

  /** Initialising records that validation has put in range yields a stocked
      pooler whenever it succeeds. */
  lemma InitOfValidatedIsStocked<K, P>(configs: seq<ObjectPool<K, P>>)
    requires forall i :: 0 <= i < |configs| ==> InRange(configs[i])
    requires Init(configs).Success?
    ensures Stocked(Init(configs).value)
  {
    var s := Init(configs).value;
    forall i | 0 <= i < |configs| ensures |s.pools[configs[i].pool]| >= 1 && configs[i].prefab.Some? {
      assert FreshQueue(configs[i], s.pools[configs[i].pool]);
      assert s.pools[configs[i].pool][0].placement == configs[i].prefab.value.placement;
    }
  }

  /** On a valid, stocked pooler, spawning any configured kind succeeds and
      leaves the pooler valid and stocked. */
  lemma SpawnOnStockedSucceeds<K, P>(s: Pooler<K, P>, k: K, placement: P)
    requires Valid(s) && Stocked(s) && k in s.pools
    ensures Spawn(s, k, placement).Success?
    ensures Valid(Spawn(s, k, placement).value.pooler) && Stocked(Spawn(s, k, placement).value.pooler)
  {
    var ci :| 0 <= ci < |s.configs| && s.configs[ci].pool == k;
    FindConfigOfDistinct(s.configs, ci);
    var q := s.pools[k];
    TryGetInactiveIsFirst(q);
    if TryGetInactive(q).None? {
      if IsExpandable(s, k) == Success(true) {
        SpawnExpands(s, k, placement);
      } else {
        SpawnRecycles(s, k, placement);
      }
    }
    SpawnPreservesValid(s, k, placement);
    SpawnNeverShrinks(s, k, placement);
  }

  /** Spawns kind `k` once per placement, in order, collecting the identities
      handed out, as a caller looping over spawn does. */
  function SpawnAll<K(==), P(==)>(s: Pooler<K, P>, k: K, placements: seq<P>): (r: Result<(Pooler<K, P>, seq<nat>), PoolError>)
    ensures r.Success? ==> |r.value.1| == |placements|
    ensures r.Success? ==> r.value.0.pools.Keys == s.pools.Keys && r.value.0.configs == s.configs
    decreases |placements|
  {
    if placements == [] then Success((s, []))
    else
      match Spawn(s, k, placements[0])
      case Failure(e) => Failure(e)
      case Success(sp) =>
        match SpawnAll(sp.pooler, k, placements[1..])
        case Failure(e) => Failure(e)
        case Success((t, ids)) => Success((t, [sp.obj.id] + ids))
  }

  /** Spawning a configured kind of a valid, stocked pooler any number of
      times never fails, whether or not the kind may grow. */
  lemma {:induction false} SpawnAllOnStockedSucceeds<K, P>(s: Pooler<K, P>, k: K, placements: seq<P>)
    requires Valid(s) && Stocked(s) && k in s.pools
    ensures SpawnAll(s, k, placements).Success?
    ensures Valid(SpawnAll(s, k, placements).value.0)
    decreases |placements|
  {
    if placements != [] {
      SpawnOnStockedSucceeds(s, k, placements[0]);
      var t := Spawn(s, k, placements[0]).value.pooler;
      SpawnAllOnStockedSucceeds(t, k, placements[1..]);
    }
  }

  // ---------------------------------------------------------------------------
  // Round-robin order

  /** One forced reuse leaves every instance active and the kind still unable
      to grow. */
  lemma RecycleStep<K, P>(s: Pooler<K, P>, k: K, placement: P) returns (t: Pooler<K, P>, o: Obj<P>)
    requires k in s.pools && AllActive(s.pools[k]) && |s.pools[k]| > 0
    requires IsExpandable(s, k) == Success(false)
    ensures Spawn(s, k, placement) == Success(Spawned(t, o))
    ensures k in t.pools && AllActive(t.pools[k])
    ensures IsExpandable(t, k) == Success(false)
    ensures o.id == Ids(s.pools[k])[0]
    ensures Ids(t.pools[k]) == RotateLeft(Ids(s.pools[k]), 1)
  {
    SpawnRecycles(s, k, placement);
    var sp := Spawn(s, k, placement).value;
    t, o := sp.pooler, sp.obj;
    var q := s.pools[k];
    var q1 := t.pools[k];
    assert q1 == q[1..] + [o];
    forall j | 0 <= j < |q1| ensures q1[j].active {
      if j < |q1| - 1 { assert q1[j] == q[j + 1]; }
    }
  }

  /** One rotation followed by `m - 1` is a rotation by `m`, and the head
      followed by the first `m - 1` elements after one rotation are the first
      `m` elements. */
  lemma RotateStep(xs: seq<nat>, m: nat, rest: seq<nat>, zs: seq<nat>)
    requires 0 < m <= |xs|
    requires rest == RotateLeft(xs, 1)[..m - 1] && zs == RotateLeft(RotateLeft(xs, 1), m - 1)
    ensures [xs[0]] + rest == xs[..m]
    ensures zs == RotateLeft(xs, m)
  {
    var r := RotateLeft(xs, 1);
    assert r[m - 1..] == xs[m..] + xs[..1];
    assert r[..m - 1] == xs[1..m];
    assert xs[..m] == xs[..1] + xs[1..m];
  }

  /** When every instance is active and the kind may not grow, `m` spawns hand
      out the first `m` instances in queue order and rotate the queue by `m`. */
  lemma {:induction false} RoundRobin<K, P>(s: Pooler<K, P>, k: K, placements: seq<P>)
      returns (t: Pooler<K, P>, ids: seq<nat>)
    requires k in s.pools && AllActive(s.pools[k]) && |placements| <= |s.pools[k]|
    requires IsExpandable(s, k) == Success(false)
    ensures SpawnAll(s, k, placements) == Success((t, ids))
    ensures ids == Ids(s.pools[k])[..|placements|]
    ensures k in t.pools && Ids(t.pools[k]) == RotateLeft(Ids(s.pools[k]), |placements|)
    ensures AllActive(t.pools[k]) && IsExpandable(t, k) == Success(false)
    decreases |placements|
  {
    var xs := Ids(s.pools[k]);
    if placements == [] {
      assert xs[..0] == [] && RotateLeft(xs, 0) == xs;
      t, ids := s, [];
    } else {
      var t1, o := RecycleStep(s, k, placements[0]);
      var rest;
      t, rest := RoundRobin(t1, k, placements[1..]);
      SpawnAllCons(s, k, placements, t1, o, t, rest);
      ids := [o.id] + rest;
      RotateStep(xs, |placements|, rest, Ids(t.pools[k]));
    }
  }

  /** A slice over the whole sequence is the sequence. */
  lemma WholeSlice(xs: seq<nat>, n: nat)
    requires n == |xs|
    ensures xs[0..n] == xs
  {
  }

  /** Concatenation of sequences associates. */
  lemma AppendAssociates<T>(a: seq<T>, b: seq<T>, c: seq<T>)
    ensures (a + b) + c == a + (b + c)
  {
  }

  /** A slice of `xs` starting at `from` is its first element `x` followed
      by the slice after it. */
  lemma SliceStep(xs: seq<nat>, x: nat, rest: seq<nat>, from: nat, n: nat, m: nat)
    requires n == m + 1 && from + n <= |xs| && x == xs[from]
    requires rest == xs[from + 1..from + 1 + m]
    ensures [x] + rest == xs[from..from + n]
  {
  }

  /** A run of spawns is its first spawn followed by the rest of the run. */
  lemma SpawnAllCons<K, P>(s: Pooler<K, P>, k: K, placements: seq<P>, t1: Pooler<K, P>, o: Obj<P>,
                           t: Pooler<K, P>, rest: seq<nat>)
    requires placements != [] && Spawn(s, k, placements[0]) == Success(Spawned(t1, o))
    requires SpawnAll(t1, k, placements[1..]) == Success((t, rest))
    ensures SpawnAll(s, k, placements) == Success((t, [o.id] + rest))
  {
  }

  /** One expansion leaves every instance active and the configuration as it
      was. */
  lemma GrowStep<K, P>(s: Pooler<K, P>, k: K, placement: P) returns (t: Pooler<K, P>, o: Obj<P>)
    requires k in s.pools && AllActive(s.pools[k]) && |s.pools[k]| > 0
    requires FindConfig(s.configs, k).Some?
    requires var c := FindConfig(s.configs, k).value;
             c.autoExpand && c.prefab.Some? && |s.pools[k]| < c.maxExpandSize
    ensures Spawn(s, k, placement) == Success(Spawned(t, o))
    ensures k in t.pools && t.configs == s.configs
    ensures AllActive(t.pools[k])
    ensures o.id == s.nextId
    ensures Ids(t.pools[k]) == Ids(s.pools[k]) + [s.nextId]
    ensures t.nextId == s.nextId + 1
  {
    SpawnExpands(s, k, placement);
    var sp := Spawn(s, k, placement).value;
    t, o := sp.pooler, sp.obj;
    assert t.pools[k] == s.pools[k] + [o];
  }

  /** While every instance is active and the queue is below its maximum, each
      spawn of a kind that may grow appends one new instance with the next
      identity: the queue keeps its old instances in order and grows by one
      per spawn. */
  lemma {:induction false} GrowsOneAtATime<K, P>(s: Pooler<K, P>, k: K, c: ObjectPool<K, P>, placements: seq<P>)
      returns (t: Pooler<K, P>, ids: seq<nat>)
    requires k in s.pools && AllActive(s.pools[k]) && |s.pools[k]| > 0
    requires FindConfig(s.configs, k) == Some(c)
    requires c.autoExpand && c.prefab.Some? && |s.pools[k]| + |placements| <= c.maxExpandSize
    ensures SpawnAll(s, k, placements) == Success((t, ids))
    ensures |ids| == |placements| && forall i :: 0 <= i < |ids| ==> ids[i] == s.nextId + i
    ensures k in t.pools && t.configs == s.configs
    ensures Ids(t.pools[k]) == Ids(s.pools[k]) + ids
    ensures AllActive(t.pools[k])
    ensures t.nextId == s.nextId + |placements|
    decreases |placements|
  {
    if placements == [] {
      assert Ids(s.pools[k]) + [] == Ids(s.pools[k]);
      t, ids := s, [];
    } else {
      var t1, o := GrowStep(s, k, placements[0]);
      var rest;
      t, rest := GrowsOneAtATime(t1, k, c, placements[1..]);
      SpawnAllCons(s, k, placements, t1, o, t, rest);
      ids := [s.nextId] + rest;
      forall i | 0 <= i < |ids| ensures ids[i] == s.nextId + i {
        if i > 0 { assert ids[i] == rest[i - 1]; }
      }
      var xs := Ids(s.pools[k]);
      assert Ids(t.pools[k]) == (xs + [s.nextId]) + rest;
      AppendAssociates(xs, [s.nextId], rest);
    }
  }

  /** One spawn on a queue whose first `done` instances are active and whose
      rest are inactive hands out instance `done` and leaves the first
      `done + 1` active. */
  lemma FillStep<K, P>(s: Pooler<K, P>, k: K, done: nat, placement: P) returns (t: Pooler<K, P>, o: Obj<P>)
    requires k in s.pools && done < |s.pools[k]|
    requires forall j :: 0 <= j < |s.pools[k]| ==> (s.pools[k][j].active <==> j < done)
    ensures Spawn(s, k, placement) == Success(Spawned(t, o))
    ensures k in t.pools && t.configs == s.configs
    ensures o.id == Ids(s.pools[k])[done]
    ensures Ids(t.pools[k]) == Ids(s.pools[k]) && t.nextId == s.nextId
    ensures |t.pools[k]| == |s.pools[k]|
    ensures forall j :: 0 <= j < |t.pools[k]| ==> (t.pools[k][j].active <==> j < done + 1)
  {
    SpawnReusesFirstInactive(s, k, placement, done);
    var sp := Spawn(s, k, placement).value;
    t, o := sp.pooler, sp.obj;
    var q := s.pools[k];
    var q1 := t.pools[k];
    assert q1 == q[done := Place(q[done], placement)];
    assert Ids(q1) == Ids(q) by {
      assert forall j :: 0 <= j < |q| ==> Ids(q1)[j] == Ids(q)[j];
    }
  }

  /** On a queue whose first `done` instances are active and whose rest are
      inactive, each spawn hands out the next inactive instance in order. */
  lemma {:induction false} FillsInOrder<K, P>(s: Pooler<K, P>, k: K, done: nat, placements: seq<P>, xs: seq<nat>)
      returns (t: Pooler<K, P>, ids: seq<nat>)
    requires k in s.pools && done + |placements| <= |s.pools[k]| && xs == Ids(s.pools[k])
    requires forall j :: 0 <= j < |s.pools[k]| ==> (s.pools[k][j].active <==> j < done)
    ensures SpawnAll(s, k, placements) == Success((t, ids))
    ensures ids == xs[done..done + |placements|]
    ensures k in t.pools && t.configs == s.configs
    ensures Ids(t.pools[k]) == xs && t.nextId == s.nextId
    ensures forall j :: 0 <= j < |t.pools[k]| ==> (t.pools[k][j].active <==> j < done + |placements|)
    decreases |placements|
  {
    if placements == [] {
      t, ids := s, [];
    } else {
      var t1, o := FillStep(s, k, done, placements[0]);
      var rest;
      t, rest := FillsInOrder(t1, k, done + 1, placements[1..], xs);
      SpawnAllCons(s, k, placements, t1, o, t, rest);
      ids := [o.id] + rest;
      SliceStep(xs, o.id, rest, done, |placements|, |placements[1..]|);
    }
  }

  /** A kind that may not grow, spawned from all-inactive, hands out its
      instances in queue order; once all are out, further spawns start again
      from the front, in the same order. */
  lemma FreshPoolRoundRobin<K, P>(s: Pooler<K, P>, k: K, first: seq<P>, second: seq<P>)
    requires k in s.pools && |first| == |s.pools[k]| && |second| <= |s.pools[k]|
    requires forall j :: 0 <= j < |s.pools[k]| ==> !s.pools[k][j].active
    requires FindConfig(s.configs, k).Some? && !FindConfig(s.configs, k).value.autoExpand
    ensures SpawnAll(s, k, first).Success?
    ensures var (t, ids) := SpawnAll(s, k, first).value;
            && ids == Ids(s.pools[k])
            && SpawnAll(t, k, second).Success?
            && SpawnAll(t, k, second).value.1 == Ids(s.pools[k])[..|second|]
            && |SpawnAll(t, k, second).value.0.pools[k]| == |s.pools[k]|
  {
    var t1, ids1 := FillsInOrder(s, k, 0, first, Ids(s.pools[k]));
    assert Ids(s.pools[k])[0..|first|] == Ids(s.pools[k]);
    assert AllActive(t1.pools[k]);
    assert IsExpandable(t1, k) == Success(false);
    var t2, ids2 := RoundRobin(t1, k, second);
  }

  // ---------------------------------------------------------------------------
  // Reclaim

  /** Disabling a kind twice is disabling it once. */
  lemma DisablePoolIdempotent<K, P>(s: Pooler<K, P>, k: K)
    requires k in s.pools
    ensures DisablePool(DisablePool(s, k).value, k) == DisablePool(s, k)
  {
    var t := DisablePool(s, k).value;
    var q := t.pools[k];
    assert forall i :: 0 <= i < |q| ==> Deactivated(q)[i] == q[i];
    assert Deactivated(q) == q;
    assert t.pools[k := q] == t.pools;
    assert DisablePool(t, k).value == t;
  }

  /** Disabling a kind keeps the invariant. */
  lemma DisablePoolPreservesValid<K, P>(s: Pooler<K, P>, k: K)
    requires Valid(s) && k in s.pools
    ensures Valid(DisablePool(s, k).value)
  {
    var t := DisablePool(s, k).value;
    ReplaceQueueKeepsIds(s.pools, s.nextId, k, t.pools[k], s.nextId);
  }

  /** After disabling a non-empty kind, the next spawn hands out the front
      instance in place: no instance is created and the queue keeps its order. */
  lemma DisableThenSpawnReturnsFront<K, P>(s: Pooler<K, P>, k: K, placement: P)
    requires k in s.pools && |s.pools[k]| > 0
    ensures var t := DisablePool(s, k).value;
            && Spawn(t, k, placement).Success?
            && Spawn(t, k, placement).value.obj.id == s.pools[k][0].id
            && Ids(Spawn(t, k, placement).value.pooler.pools[k]) == Ids(s.pools[k])
            && Spawn(t, k, placement).value.pooler.nextId == s.nextId
  {
    var t := DisablePool(s, k).value;
    SpawnReusesFirstInactive(t, k, placement, 0);
    var q' := Spawn(t, k, placement).value.pooler.pools[k];
    assert Ids(q') == Ids(t.pools[k]);
  }

  /** Switching an instance on or off from outside keeps the invariant. */
  lemma SetActivePreservesValid<K, P>(s: Pooler<K, P>, id: nat, active: bool)
    requires Valid(s)
    ensures Valid(SetActive(s, id, active))
  {
    var t := SetActive(s, id, active);
    assert forall k :: k in s.pools ==> Ids(t.pools[k]) == Ids(s.pools[k]);
    forall k1, k2 | k1 in t.pools && k2 in t.pools && k1 != k2
      ensures DisjointIds(t.pools[k1], t.pools[k2])
    {
      assert DisjointIds(s.pools[k1], s.pools[k2]);
      assert forall i :: 0 <= i < |t.pools[k1]| ==> t.pools[k1][i].id == s.pools[k1][i].id;
      assert forall i :: 0 <= i < |t.pools[k2]| ==> t.pools[k2][i].id == s.pools[k2][i].id;
    }
  }

  /** An instance a caller switched off becomes the next one handed out when
      it is the only inactive instance of its kind: it is reused in place. */
  lemma ExternallyDeactivatedIsReused<K, P>(s: Pooler<K, P>, k: K, i: nat, placement: P)
    requires k in s.pools && i < |s.pools[k]| && AllActive(s.pools[k]) && NoDuplicates(Ids(s.pools[k]))
    ensures var t := SetActive(s, s.pools[k][i].id, false);
            && Spawn(t, k, placement).Success?
            && Spawn(t, k, placement).value.obj.id == s.pools[k][i].id
            && |Spawn(t, k, placement).value.pooler.pools[k]| == |s.pools[k]|
            && Ids(Spawn(t, k, placement).value.pooler.pools[k]) == Ids(s.pools[k])
  {
    var t := SetActive(s, s.pools[k][i].id, false);
    forall j | 0 <= j < i ensures t.pools[k][j].active {
      assert Ids(s.pools[k])[j] != Ids(s.pools[k])[i];
    }
    SpawnReusesFirstInactive(t, k, placement, i);
  }
}

=== FILE: pooler_scenarios.dfy ===
/** Whole-run scenarios of the pool engine, each starting from `Init` of a
    single record and following a caller's sequence of spawns. */
module PoolerScenarios {
  import opened Wrappers
  import opened PoolConfig
  import opened ObjectPooler
  import opened PoolerProperties

  /** A pool of three that may not grow, spawned five times: no spawn fails,
      the queue stays at three, the first three spawns hand out the three
      instances in order, and the fourth and fifth hand out the first and
      second again. */
  lemma FixedPoolOfThreeSpawnedFiveTimes<K, P>(k: K, prefab: Prefab<P>, p1: P, p2: P, p3: P, p4: P, p5: P)
    ensures var c := ObjectPool(k, Some(prefab), 3, false, 20);
            && Init([c]).Success?
            && var s := Init([c]).value;
               && SpawnAll(s, k, [p1, p2, p3]).Success?
               && var (t, ids) := SpawnAll(s, k, [p1, p2, p3]).value;
                  && SpawnAll(t, k, [p4, p5]).Success?
                  && var (u, more) := SpawnAll(t, k, [p4, p5]).value;
                     && ids == Ids(s.pools[k])
                     && more == [ids[0], ids[1]]
                     && |u.pools[k]| == 3
                     && NoDuplicates(ids)
  {
    var c := ObjectPool(k, Some(prefab), 3, false, 20);
    InitSingle(c);
    var s := Init([c]).value;
    FreshPoolRoundRobin(s, k, [p1, p2, p3], [p4, p5]);
  }

  /** Initialising a single creatable record yields a valid pooler holding
      one fresh queue, the record's own. */
  lemma InitSingle<K, P>(c: ObjectPool<K, P>)
    requires Creatable(c)
    ensures Init([c]).Success?
    ensures var s := Init([c]).value;
            && s.configs == [c] && Valid(s) && c.pool in s.pools
            && FreshQueue(c, s.pools[c.pool])
            && FindConfig(s.configs, c.pool) == Some(c)
  {
    assert Fillable([c], map[]);
    var s := Init([c]).value;
    FindConfigOfDistinct(s.configs, 0);
  }

  /** A pool of two that may grow to four, spawned five times: the first two
      spawns hand out the two initial instances, the next two each append a
      new instance, and the fifth, with the queue at its maximum, hands out
      the oldest instance again. */
  lemma GrowingPoolOfTwoSpawnedFiveTimes<K, P>(k: K, prefab: Prefab<P>, p1: P, p2: P, p3: P, p4: P, p5: P)
      returns (s: Pooler<K, P>, s2: Pooler<K, P>, first: seq<nat>, s4: Pooler<K, P>, grown: seq<nat>)
    ensures Init([ObjectPool(k, Some(prefab), 2, true, 4)]) == Success(s)
    ensures SpawnAll(s, k, [p1, p2]) == Success((s2, first)) && first == Ids(s.pools[k])
    ensures SpawnAll(s2, k, [p3, p4]) == Success((s4, grown))
    ensures |grown| == 2 && grown[0] == s.nextId && grown[1] == s.nextId + 1
    ensures k in s4.pools && |s4.pools[k]| == 4
    ensures Spawn(s4, k, p5).Success?
    ensures Spawn(s4, k, p5).value.obj.id == first[0]
    ensures |Spawn(s4, k, p5).value.pooler.pools[k]| == 4
  {
    var c := ObjectPool(k, Some(prefab), 2, true, 4);
    InitSingle(c);
    s := Init([c]).value;
    s2, first := FillsInOrder(s, k, 0, [p1, p2], Ids(s.pools[k]));
    WholeSlice(Ids(s.pools[k]), 2);
    assert AllActive(s2.pools[k]);
    s4, grown := GrowsOneAtATime(s2, k, c, [p3, p4]);
    assert IsExpandable(s4, k) == Success(false);
    SpawnRecycles(s4, k, p5);
    assert Ids(s4.pools[k])[0] == Ids(s2.pools[k])[0];
  }

  /** A spawn, a disable of the whole kind, and a second spawn on a fresh
      pool: both spawns hand out the same (front) instance, in place. */
  lemma SpawnDisableSpawnReusesSameInstance<K, P>(k: K, prefab: Prefab<P>, n: int, grow: bool, max: int, p1: P, p2: P)
    requires n >= 1
    ensures var c := ObjectPool(k, Some(prefab), n, grow, max);
            && Init([c]).Success?
            && var s := Init([c]).value;
               && Spawn(s, k, p1).Success?
               && var s1 := Spawn(s, k, p1).value;
                  && s1.obj.id == s.pools[k][0].id
                  && DisablePool(s1.pooler, k).Success?
                  && var s2 := DisablePool(s1.pooler, k).value;
                     && Spawn(s2, k, p2).Success?
                     && Spawn(s2, k, p2).value.obj.id == s1.obj.id
                     && |Spawn(s2, k, p2).value.pooler.pools[k]| == n
                     && Ids(Spawn(s2, k, p2).value.pooler.pools[k]) == Ids(s.pools[k])
  {
    var c := ObjectPool(k, Some(prefab), n, grow, max);
    InitSingle(c);
    var s := Init([c]).value;
    SpawnReusesFirstInactive(s, k, p1, 0);
    var s1 := Spawn(s, k, p1).value;
    assert Ids(s1.pooler.pools[k]) == Ids(s.pools[k]) by {
      assert forall j :: 0 <= j < |s.pools[k]| ==> s1.pooler.pools[k][j].id == s.pools[k][j].id;
    }
    DisableThenSpawnReturnsFront(s1.pooler, k, p2);
  }
}

=== FILE: vectors.dfy ===
/** The axis-masked vector replacement of the pooler's vector extensions.
    Components are only copied, never computed on, so their type is a
    parameter `T` rather than a floating-point type. */
module Vectors {

  datatype Vector3<T> = Vector3(x: T, y: T, z: T)

  /** The integer vector used as an axis mask. */
  datatype Vector3Int = Vector3Int(x: int, y: int, z: int)

  datatype Axis = X | Y | Z

  function Get<T>(v: Vector3<T>, a: Axis): T
  {
    match a
    case X => v.x
    case Y => v.y
    case Z => v.z
  }

  function Mask(axes: Vector3Int, a: Axis): int
  {
    match a
    case X => axes.x
    case Y => axes.y
    case Z => axes.z
  }

  /** A mask component is well formed when it is 0 or 1. */
  predicate IsZeroOrOne(n: int)
  {
    n == 0 || n == 1
  }

  /** The whole mask is well formed when every component is 0 or 1. */
  predicate Is01(axes: Vector3Int)
  {
    IsZeroOrOne(axes.x) && IsZeroOrOne(axes.y) && IsZeroOrOne(axes.z)
  }

  /** Whether the replacement logs its "axes is not correct" warning. The
      warning is the only effect of an ill-formed mask. */
  function AxesWarning(axes: Vector3Int): (warn: bool)
    ensures warn <==> exists a: Axis :: !IsZeroOrOne(Mask(axes, a))
  {
    var bad := if !IsZeroOrOne(axes.x) then X else if !IsZeroOrOne(axes.y) then Y else Z;
    assert !Is01(axes) ==> !IsZeroOrOne(Mask(axes, bad));
    !Is01(axes)
  }

  /** Takes `to`'s component on every axis whose mask component is exactly 1
      and keeps `vector`'s component on every other axis, whatever the mask
      holds there (0, 2, -1, ...). */
  function ReplaceWithAxes<T>(vector: Vector3<T>, axes: Vector3Int, to: Vector3<T>): (r: Vector3<T>)
    ensures forall a: Axis :: Mask(axes, a) == 1 ==> Get(r, a) == Get(to, a)
    ensures forall a: Axis :: Mask(axes, a) != 1 ==> Get(r, a) == Get(vector, a)
  {
    var nx := if axes.x == 1 then to.x else vector.x;
    var ny := if axes.y == 1 then to.y else vector.y;
    var nz := if axes.z == 1 then to.z else vector.z;
    Vector3(nx, ny, nz)
  }

  /** Two vectors that agree on every axis are equal. */
  lemma AxesDetermine<T>(u: Vector3<T>, v: Vector3<T>)
    requires forall a: Axis :: Get(u, a) == Get(v, a)
    ensures u == v
  {
    assert Get(u, X) == Get(v, X);
    assert Get(u, Y) == Get(v, Y);
    assert Get(u, Z) == Get(v, Z);
  }

  /** The full mask (1, 1, 1) yields the target. */
  lemma FullMaskYieldsTarget<T>(vector: Vector3<T>, to: Vector3<T>)
    ensures ReplaceWithAxes(vector, Vector3Int(1, 1, 1), to) == to
  {
    AxesDetermine(ReplaceWithAxes(vector, Vector3Int(1, 1, 1), to), to);
  }

  /** The empty mask (0, 0, 0) leaves the vector unchanged. */
  lemma EmptyMaskKeepsVector<T>(vector: Vector3<T>, to: Vector3<T>)
    ensures ReplaceWithAxes(vector, Vector3Int(0, 0, 0), to) == vector
  {
    AxesDetermine(ReplaceWithAxes(vector, Vector3Int(0, 0, 0), to), vector);
  }

  /** Replacing twice with the same mask and target is replacing once. */
  lemma ReplaceIdempotent<T>(vector: Vector3<T>, axes: Vector3Int, to: Vector3<T>)
    ensures var once := ReplaceWithAxes(vector, axes, to);
            ReplaceWithAxes(once, axes, to) == once
  {
    var once := ReplaceWithAxes(vector, axes, to);
    AxesDetermine(ReplaceWithAxes(once, axes, to), once);
  }

  /** With the same mask, the later target wins on every masked axis. */
  lemma LaterTargetWins<T>(vector: Vector3<T>, axes: Vector3Int, first: Vector3<T>, second: Vector3<T>)
    ensures ReplaceWithAxes(ReplaceWithAxes(vector, axes, first), axes, second)
         == ReplaceWithAxes(vector, axes, second)
  {
    AxesDetermine(ReplaceWithAxes(ReplaceWithAxes(vector, axes, first), axes, second),
                  ReplaceWithAxes(vector, axes, second));
  }

  /** An ill-formed mask such as (2, 1, -1) only raises the warning: the
      replacement is still computed, taking `to` where the mask is 1. */
  lemma IllFormedMaskStillReplaces<T>(vector: Vector3<T>, to: Vector3<T>)
    ensures AxesWarning(Vector3Int(2, 1, -1))
    ensures ReplaceWithAxes(vector, Vector3Int(2, 1, -1), to) == Vector3(vector.x, to.y, vector.z)
  {
    assert !IsZeroOrOne(Mask(Vector3Int(2, 1, -1), X));
    AxesDetermine(ReplaceWithAxes(vector, Vector3Int(2, 1, -1), to), Vector3(vector.x, to.y, vector.z));
  }
}

=== FILE: wrappers.dfy ===
/** Wrappers used by the pooler model: an optional value and a value-or-error
    result standing in for the exceptions the pooler throws. */
module Wrappers {

  datatype Option<+T> = None | Some(value: T)

  datatype Result<+R, +E> = Success(value: R) | Failure(error: E)
}
